=== FILE: README.md ===
# PostgresController in Dafny

This project models the self-contained logic of `PostgresController`, a
single-connection helper around a PostgreSQL driver. Two parts are modelled.

- **The lazy-connect / reconnect state machine.** The controller starts with no
  connection. Every database operation (`select`, `select_with_columns`,
  `execute`, `insert_dataframe`) first runs the reconnect check. The check
  connects when the connection is absent or its `closed` flag is nonzero, and
  it keeps the bookkeeping pair `is_reconnect` / `reconnect_number`. Teardown
  closes the connection if it is open.
- **The text of the bulk-insert statement.** The schema, table and column names
  are spliced into `INSERT INTO <schema>.<table> (<c1>, <c2>, ...) VALUES %s`.
  The schema defaults to `public`.

The read, write and bulk-insert operations are modelled on top of these two
parts. The driver is a function parameter: it maps the connection parameters
and a statement text to what the cursor reports, or to the error it raised.
The driver's outcome has its own type, so a driver cannot produce the one error
the controller itself causes (a missing result description). Each
operation is shown to be a step of a `Lifecycle` run, so the run lemmas apply
to any sequence of operations.

Modules:

- `Connection` (`connection.dfy`): the construction parameters, the connection
  handle, the controller state, and the pure step functions. The steps are the
  check, a check whose connect is refused, the server closing the connection,
  and teardown.
- `Lifecycle` (`lifecycle.dfy`): runs, i.e. sequences of those steps, with
  lemmas about the whole run. They cover connect counting, monotonicity of the
  bookkeeping, and the reachable-state invariant.
- `Sql` (`sql.dfy`): Python's `sep.join`, with a full description of its layout,
  and the INSERT statement with its placeholder count.
- `Operations` (`operations.dfy`): `select_with_columns`, `select`, `execute`
  and `insert_dataframe`, each over an abstract driver.

Three facts about the code shape the model.

- Teardown calls `close()` on the handle. The handle then stays in place with
  its `closed` flag set to 1.
- The bookkeeping is two fields, `is_reconnect` and `reconnect_number`.
  `Consistent` states which combinations of them are reachable.
- The bookkeeping is updated *before* the connect is attempted. A refused
  connect is therefore counted too, and after a refused first connect the next
  successful connect counts as a reconnect (`Lifecycle.RefusedFirstConnectIsCounted`).

The driver's `closed` flag is taken to be 0 for an open connection and 1 after a
local `close()`. The driver sets it to some other nonzero value when it finds
the connection broken. In the model that happens in one of two places: during
a statement, where the driver's error carries the flag value it left, or
between operations, as the `PeerClosed` step of a run.

## Model

| member | source | states |
|---|---|---|
| Connection.New | postgres_contoller.py:16-31 | a new controller keeps its parameters, has no connection, counts no connect, and is in a reachable state |
| Connection.ConnectionIsClosed | postgres_contoller.py:45-46 | the connection counts as closed exactly when it is not an open handle; an absent handle is closed |
| Connection.Connect | postgres_contoller.py:33-40 | connecting yields an open handle opened with the controller's own five parameters and touches no bookkeeping |
| Connection.CountConnect | postgres_contoller.py:50-53 | the bookkeeping update sets `is_reconnect` and raises the connect count by exactly one, never lowering `reconnect_number` |
| Connection.CheckAndReconnect | postgres_contoller.py:48-54 | afterwards the connection is open; an open connection is left alone; otherwise a fresh handle is opened, the first connect sets `is_reconnect` without counting, and every later one adds exactly 1 to `reconnect_number`; reachability is preserved |
| Connection.CheckAndReconnectRefused | postgres_contoller.py:48-54 | when the connect raises, the bookkeeping is already updated by one, the old handle stays, and the connection is still closed |
| Connection.PeerClose | postgres_contoller.py:45-46 | a server-side close leaves the connection closed and changes neither the parameters nor the bookkeeping |
| Connection.Teardown | postgres_contoller.py:42-44 | teardown closes the handle only when it is open, with flag value 1; an absent or closed handle is left as it is |
| Connection.TeardownIdempotent | postgres_contoller.py:42-44 | tearing down a second time changes nothing |
| Lifecycle.RunCountsConnects | postgres_contoller.py:48-54 | over any run, with peer closes anywhere, the connect attempts equal the growth of `(is_reconnect ? 1 : 0) + reconnect_number` |
| Lifecycle.RunMonotone | postgres_contoller.py:50-53 | over any run, `is_reconnect` never reverts to false, `reconnect_number` never decreases, and the parameters never change |
| Lifecycle.RunPreservesConsistent | postgres_contoller.py:29-54 | every run from a reachable state ends in a reachable state |
| Lifecycle.FromNewCountsConnects | postgres_contoller.py:29-54 | from construction, `is_reconnect` holds exactly when a connect was attempted, and `reconnect_number` is the number of attempts minus one |
| Lifecycle.RunEndingInOperationIsOpen | postgres_contoller.py:48-54 | whatever came before, after an operation's check the connection is open |
| Lifecycle.OperationsConnectAtMostOnce | postgres_contoller.py:48-54 | a series of operations with no close in between connects at most once, at its first step, and only if the connection was closed |
| Lifecycle.FirstConnectThenOneReconnect | postgres_contoller.py:48-54 | the first operation connects without counting a reconnect; a server-side close between two operations costs exactly one reconnect |
| Lifecycle.RefusedFirstConnectIsCounted | postgres_contoller.py:50-54 | a refused first connect sets `is_reconnect` and leaves no handle, so the next successful connect is counted as a reconnect |
| Operations.ColumnNames | postgres_contoller.py:65 | the column names are the first fields of the result description, one per entry and in order |
| Operations.SelectWithColumns | postgres_contoller.py:60-68 | the statement runs on the connection the check opened, so one connect is counted exactly when the connection was closed and a reachable state stays reachable; the connection is open afterwards unless a driver error broke it; a driver error propagates unchanged; a statement without a result description fails; otherwise the fetched rows and the described column names are returned |
| Operations.Select | postgres_contoller.py:56-58 | `select` has the same state, success and error as `select_with_columns`, and its rows are exactly the rows component |
| Operations.Execute | postgres_contoller.py:70-74 | the statement runs on the connection the check opened, so one connect is counted exactly when the connection was closed and a reachable state stays reachable; the connection is open afterwards unless a driver error broke it; the statement succeeds exactly when the driver accepts it, the driver's error propagates unchanged, and no other error occurs |
| Operations.InsertDataframe | postgres_contoller.py:115-128 | the builder runs on the connection the check opened, so one connect is counted exactly when the connection was closed and a reachable state stays reachable; the connection is open afterwards unless the builder's error broke it; the builder's outcome is the operation's outcome |
| Operations.InsertHandsStatement | postgres_contoller.py:121-128 | the builder receives the rows and a statement that starts with `INSERT INTO `, ends with `) VALUES %s`, and holds a single `%` exactly when no schema, table or column name contains one |
| Operations.NoDescriptionOnlyForExecute | postgres_contoller.py:60-74 | a statement that returns no result description succeeds through `execute` but fails through `select_with_columns` and `select` |
| Operations.OperationsAreRunSteps | postgres_contoller.py:56-74 | each of `select_with_columns`, `select`, `execute` and `insert_dataframe`, whatever the driver returns, moves the controller exactly as a run of the reconnect check (followed by a close when a driver error broke the connection), and connects exactly once when the connection was closed and never otherwise |
| Sql.Join | postgres_contoller.py:127 | an empty column list joins to the empty text; otherwise the joined list is as long as the names together plus one separator between each two |
| Sql.JoinLength | postgres_contoller.py:127 | a joined list ends right after its last part |
| Sql.JoinPartAt | postgres_contoller.py:127 | every part of a joined list appears at its offset, which is the total length of the earlier parts plus one separator each |
| Sql.JoinSeparatorAt | postgres_contoller.py:127 | between two consecutive parts of a joined list there is exactly one separator |
| Sql.JoinOccurrences | postgres_contoller.py:127 | a character the separator does not contain occurs in the joined list as often as in the parts together |
| Sql.TotalOccurrencesZero | postgres_contoller.py:127 | no part contains a character exactly when its total count over the parts is zero |
| Sql.InsertStatement | postgres_contoller.py:119-127 | the statement is as long as its `INSERT INTO <schema>.<table> (` head, the joined column list and the `) VALUES %s` tail together |
| Sql.InsertStatementFrame | postgres_contoller.py:127 | the statement starts with `INSERT INTO ` and ends with `) VALUES %s` |
| Sql.InsertColumnLayout | postgres_contoller.py:127 | each column name appears in the statement, in order, right after the `INSERT INTO <schema>.<table> (` head at its offset in the column list |
| Sql.PlaceholderCount | postgres_contoller.py:127 | the statement has one `%` per `%` in the schema, table and column names, plus the one of the placeholder |
| Sql.SinglePlaceholderIff | postgres_contoller.py:127-128 | the statement's only `%` is the placeholder's exactly when no schema, table or column name contains `%` |

## Left out

- The driver connection, its cursors, and the commit or rollback done by `with conn`. These are the driver's behaviour. The driver appears as a function parameter, and a connect is modelled as succeeding or as refused.
- The 50,000-row paging inside `execute_values`. It is the driver library's behaviour. The model hands all rows to the batched builder in one call.
- `_split_to_rows_columns`: it depends on the dataframe library. The model takes the column names and the rows directly.
- Sql.InsertStatement: column labels are taken to be strings. A frame with non-string labels, such as integer labels, makes `', '.join` raise `TypeError` after the check has already counted its connect; that error path is not modelled.
- `cast_dict_to_json`: it is a direct call to the JSON library.
- Logging and wall-clock durations in `insert_dataframe`: these are side effects and time.
- Concurrent use: the race on the lazy-connect check is out of scope, because the class is single-threaded.
- SQL quoting or escaping of names: the code does none, so the model asserts none. `Sql.SinglePlaceholderIff` only states what the unescaped names do to the placeholder count.
- Operations.SelectWithColumns, Operations.Select, Operations.Execute, Operations.InsertDataframe: a connect refused inside an operation is not modelled in these four. `Connection.CheckAndReconnectRefused` and the `Refused` step of `Lifecycle` cover the state such a failure leaves behind.
- The construction parameters are kept as given. The code accepts a host given as a string or a number, and the model keeps only strings.
- When the driver finds a connection broken is the driver's behaviour. A driver error reports the flag value it left, and a statement that succeeds is taken to leave the connection open.

=== FILE: connection.dfy ===
/** The lazily opened connection of a `PostgresController` and the bookkeeping
    it keeps about reconnects.

    The driver connection is abstracted to the two things the controller looks at:
    the parameters it was opened with and its `closed` flag, which is 0 while the
    connection is usable and nonzero once it has been closed (1 after a local
    `close()`, another nonzero code once the driver found it broken).
 */
module Connection {

  /** The five construction parameters; never changed after construction. */
  datatype Config = Config(host: string, port: int, user: string, password: string, database: string)

  /** A value of the driver's `closed` flag that marks a closed connection. */
  type CloseCode = code: int | code != 0 witness 1

  /** The flag value the driver sets when the connection is closed locally. */
  const ClosedLocally: CloseCode := 1

  /** The connection slot: nothing yet, or a driver connection. */
  datatype Handle = Absent | Conn(params: Config, closed: int)

  /** The controller's state: its parameters, its connection slot, whether a
      first connect has been attempted, and how many attempts came after it. */
  datatype Controller = Controller(
    config: Config,
    conn: Handle,
    isReconnect: bool,
    reconnectNumber: nat)

  /** A handle the controller may run statements on. */
  predicate IsOpen(h: Handle) {
    h.Conn? && h.closed == 0
  }

  /** The number of connect attempts the bookkeeping pair accounts for: the
      first flips `isReconnect`, every later one bumps `reconnectNumber`. */
  function ConnectCount(c: Controller): nat {
    (if c.isReconnect then 1 else 0) + c.reconnectNumber
  }

  /** The states the controller can reach: before the first connect attempt
      there is no handle and no reconnect is counted, and a handle was always
      opened with the controller's own parameters. */
  predicate Consistent(c: Controller) {
    && (!c.isReconnect ==> c.conn.Absent? && c.reconnectNumber == 0)
    && (c.conn.Conn? ==> c.conn.params == c.config)
  }

  /** A freshly constructed controller: no connection and no connect counted. */
  function New(config: Config): (c: Controller)
    ensures c.config == config
    ensures c.conn == Absent
    ensures ConnectCount(c) == 0
    ensures Consistent(c)
  {
    Controller(config, Absent, false, 0)
  }

  /** Whether the controller must connect before running a statement. */
  function ConnectionIsClosed(c: Controller): (closed: bool)
    ensures closed <==> !IsOpen(c.conn)
    ensures c.conn.Absent? ==> closed
  {
    c.conn == Absent || c.conn.closed != 0
  }

  /** Opens a new driver connection with the controller's parameters; the
      connect is modelled as always succeeding. */
  function Connect(c: Controller): (r: Controller)
    ensures IsOpen(r.conn) && r.conn.params == c.config
    ensures r.config == c.config
    ensures r.isReconnect == c.isReconnect && r.reconnectNumber == c.reconnectNumber
  {
    c.(conn := Conn(c.config, 0))
  }

  /** The bookkeeping update done just before a connect is attempted: the
      first attempt sets `isReconnect`, every later one bumps `reconnectNumber`. */
  function CountConnect(c: Controller): (r: Controller)
    ensures r.isReconnect
    ensures ConnectCount(r) == ConnectCount(c) + 1
    ensures r.config == c.config && r.conn == c.conn
    ensures c.reconnectNumber <= r.reconnectNumber
  {
    if c.isReconnect then c.(reconnectNumber := c.reconnectNumber + 1)
    else c.(isReconnect := true)
  }

  /** The check every operation runs first: connect when the connection is
      absent or closed, counting the connect in the bookkeeping pair. */
  function CheckAndReconnect(c: Controller): (r: Controller)
    ensures IsOpen(r.conn) && !ConnectionIsClosed(r)
    ensures r.config == c.config
    ensures !ConnectionIsClosed(c) ==> r == c
    ensures ConnectionIsClosed(c) ==> r.conn == Conn(c.config, 0)
    ensures ConnectionIsClosed(c) && !c.isReconnect ==>
              r.isReconnect && r.reconnectNumber == c.reconnectNumber
    ensures ConnectionIsClosed(c) && c.isReconnect ==>
              r.isReconnect && r.reconnectNumber == c.reconnectNumber + 1
    ensures ConnectCount(r) == ConnectCount(c) + (if ConnectionIsClosed(c) then 1 else 0)
    ensures Consistent(c) ==> Consistent(r)
  {
    if ConnectionIsClosed(c) then Connect(CountConnect(c)) else c
  }

  /** The state the check leaves behind when the driver refuses the connection
      (the error then propagates out of the operation): the bookkeeping was
      already updated, and the handle is the old one. */
  function CheckAndReconnectRefused(c: Controller): (r: Controller)
    ensures !ConnectionIsClosed(c) ==> r == c
    ensures ConnectionIsClosed(c) ==> ConnectionIsClosed(r) && r.conn == c.conn && r.isReconnect
    ensures r.config == c.config
    ensures ConnectCount(r) == ConnectCount(c) + (if ConnectionIsClosed(c) then 1 else 0)
    ensures Consistent(c) ==> Consistent(r)
  {
    if ConnectionIsClosed(c) then CountConnect(c) else c
  }

  /** The environment closing the connection from the server side. There is
      nothing to close while no connection exists. */
  function PeerClose(c: Controller, code: CloseCode): (r: Controller)
    ensures ConnectionIsClosed(r)
    ensures r.config == c.config
    ensures r.isReconnect == c.isReconnect && r.reconnectNumber == c.reconnectNumber
    ensures c.conn.Absent? ==> r == c
    ensures c.conn.Conn? ==> r.conn == Conn(c.conn.params, code)
    ensures ConnectCount(r) == ConnectCount(c)
    ensures Consistent(c) ==> Consistent(r)
  {
    match c.conn
    case Absent => c
    case Conn(params, _) => c.(conn := Conn(params, code))
  }

  /** Teardown of the controller: the connection is closed, but only when one
      exists and is not already closed. */
  function Teardown(c: Controller): (r: Controller)
    ensures ConnectionIsClosed(r)
    ensures ConnectionIsClosed(c) ==> r == c
    ensures IsOpen(c.conn) ==> r.conn == Conn(c.conn.params, ClosedLocally)
    ensures r.config == c.config
    ensures r.isReconnect == c.isReconnect && r.reconnectNumber == c.reconnectNumber
    ensures Consistent(c) ==> Consistent(r)
  {
    if !ConnectionIsClosed(c) then c.(conn := Conn(c.conn.params, ClosedLocally)) else c
  }

  /** Tearing down twice closes the connection once. */
  lemma TeardownIdempotent(c: Controller)
    ensures Teardown(Teardown(c)) == Teardown(c)
  {
  }
}

=== FILE: lifecycle.dfy ===
/** Runs of the controller: a sequence of operations, each of which starts with
    the reconnect check, interleaved with the server closing the connection.
 */
module Lifecycle {
  import opened Connection

  /** One step of a run: a public operation (`select`, `select_with_columns`,
      `execute` or `insert_dataframe`, which all begin with the reconnect check),
      an operation whose connect the driver refuses, or the server closing the
      connection with the given flag value. */
  datatype Event = Operation | Refused | PeerClosed(code: CloseCode)

  function Apply(c: Controller, e: Event): Controller {
    match e
    case Operation => CheckAndReconnect(c)
    case Refused => CheckAndReconnectRefused(c)
    case PeerClosed(code) => PeerClose(c, code)
  }

  /** Whether the step attempts to open a new driver connection. */
  predicate Connects(c: Controller, e: Event) {
    !e.PeerClosed? && ConnectionIsClosed(c)
  }

  /** The state after the events, applied in order. */
  function Run(c: Controller, events: seq<Event>): Controller
    decreases |events|
  {
    if |events| == 0 then c else Run(Apply(c, events[0]), events[1..])
  }

  /** The number of driver connects the run attempts. */
  function ConnectsDuring(c: Controller, events: seq<Event>): nat
    decreases |events|
  {
    if |events| == 0 then 0
    else (if Connects(c, events[0]) then 1 else 0) + ConnectsDuring(Apply(c, events[0]), events[1..])
  }

  /** Every connect attempt of a run, successful or refused, is accounted for
      by exactly one unit of the bookkeeping pair, and peer closes account for
      none. */
  lemma {:induction false} RunCountsConnects(c: Controller, events: seq<Event>)
    ensures ConnectCount(Run(c, events)) == ConnectCount(c) + ConnectsDuring(c, events)
    decreases |events|
  {
    if |events| > 0 {
      RunCountsConnects(Apply(c, events[0]), events[1..]);
    }
  }

  /** `isReconnect` never reverts to false, `reconnectNumber` never decreases,
      and the parameters never change. */
  lemma {:induction false} RunMonotone(c: Controller, events: seq<Event>)
    ensures c.isReconnect ==> Run(c, events).isReconnect
    ensures c.reconnectNumber <= Run(c, events).reconnectNumber
    ensures Run(c, events).config == c.config
    decreases |events|
  {
    if |events| > 0 {
      RunMonotone(Apply(c, events[0]), events[1..]);
    }
  }

  /** Every run keeps the controller in a reachable state. */
  lemma {:induction false} RunPreservesConsistent(c: Controller, events: seq<Event>)
    requires Consistent(c)
    ensures Consistent(Run(c, events))
    decreases |events|
  {
    if |events| > 0 {
      RunPreservesConsistent(Apply(c, events[0]), events[1..]);
    }
  }

  /** From construction, the bookkeeping pair tells exactly how many connects
      were attempted: `isReconnect` is set once there was any, and
      `reconnectNumber` counts all but the first. */
  lemma FromNewCountsConnects(config: Config, events: seq<Event>)
    ensures ConnectCount(Run(New(config), events)) == ConnectsDuring(New(config), events)
    ensures Run(New(config), events).isReconnect <==> ConnectsDuring(New(config), events) > 0
    ensures Run(New(config), events).reconnectNumber ==
              if ConnectsDuring(New(config), events) == 0 then 0
              else ConnectsDuring(New(config), events) - 1
    ensures Consistent(Run(New(config), events))
  {
    RunCountsConnects(New(config), events);
    RunPreservesConsistent(New(config), events);
  }

  /** Running one more event is applying it to the state the run reached. */
  lemma {:induction false} RunSnoc(c: Controller, events: seq<Event>, e: Event)
    ensures Run(c, events + [e]) == Apply(Run(c, events), e)
    decreases |events|
  {
    if |events| == 0 {
      assert events + [e] == [e];
    } else {
      assert (events + [e])[1..] == events[1..] + [e];
      RunSnoc(Apply(c, events[0]), events[1..], e);
    }
  }

  /** Whatever happened before, a run that ends in an operation leaves the
      connection open: the operation's statement runs on an open connection. */
  lemma RunEndingInOperationIsOpen(c: Controller, events: seq<Event>)
    requires |events| > 0 && events[|events| - 1] == Operation
    ensures IsOpen(Run(c, events).conn)
  {
    var prefix := events[..|events| - 1];
    assert events == prefix + [Operation];
    RunSnoc(c, prefix, Operation);
  }

  /** Operations on an open connection never connect: a run of operations only
      connects at its first step, if at all. */
  lemma {:induction false} OperationsConnectAtMostOnce(c: Controller, n: nat)
    ensures ConnectsDuring(c, seq(n, _ => Operation)) == if n > 0 && ConnectionIsClosed(c) then 1 else 0
    ensures n > 0 ==> IsOpen(Run(c, seq(n, _ => Operation)).conn)
    decreases n
  {
    if n > 0 {
      var ops := seq(n, _ => Operation);
      assert ops[0] == Operation;
      assert ops[1..] == seq(n - 1, _ => Operation);
      OperationsConnectAtMostOnce(CheckAndReconnect(c), n - 1);
    }
  }

  /** The first operation connects once and is not counted as a reconnect; a
      server-side close between two operations costs exactly one reconnect. */
  lemma FirstConnectThenOneReconnect(config: Config, code: CloseCode)
    ensures Run(New(config), [Operation]).isReconnect
    ensures Run(New(config), [Operation]).reconnectNumber == 0
    ensures ConnectsDuring(New(config), [Operation, PeerClosed(code), Operation]) == 2
    ensures Run(New(config), [Operation, PeerClosed(code), Operation]).reconnectNumber == 1
  {
    var s1 := CheckAndReconnect(New(config));
    assert Run(New(config), [Operation]) == s1 by {
      assert [Operation][1..] == [];
    }
    var s2 := PeerClose(s1, code);
    var s3 := CheckAndReconnect(s2);
    var evs := [Operation, PeerClosed(code), Operation];
    assert evs[1..] == [PeerClosed(code), Operation];
    assert evs[1..][1..] == [Operation];
    assert evs[1..][1..][1..] == [];
    assert Run(s2, [Operation]) == s3 && ConnectsDuring(s2, [Operation]) == 1;
    assert Run(s1, evs[1..]) == s3 && ConnectsDuring(s1, evs[1..]) == 1;
  }

  /** A refused first connect already sets `isReconnect`, so the connect that
      succeeds after it is counted as a reconnect. */
  lemma RefusedFirstConnectIsCounted(config: Config)
    ensures Run(New(config), [Refused]).isReconnect
    ensures Run(New(config), [Refused]).conn == Absent
    ensures Run(New(config), [Refused, Operation]).reconnectNumber == 1
  {
  }
}

=== FILE: operations.dfy ===
/** The public database operations of `PostgresController`. Each one runs the
    reconnect check first and then hands its statement to the driver over the
    (now open) connection. The driver is a parameter: a function from the
    connection's parameters and the statement text to what the cursor reports,
    or to the error the driver raises.
 */
module Operations {
  import opened Connection
  import opened Lifecycle
  import opened Sql

  /** What a driver call reports: its value, or the error it raised together
      with the value the connection's `closed` flag has once it raised: 0 when
      the connection survived the error, nonzero when the driver found it
      broken. */
  datatype Outcome<T> = Done(value: T) | Raised(message: string, closed: int)

  /** What an operation fails with: an error the driver raised, or the one
      error the controller itself causes, iterating a missing result
      description (a statement that returns no rows run through
      `select_with_columns`). */
  datatype DbError = DriverError(message: string, closed: int) | NoResultDescription

  datatype Result<T> = Ok(value: T) | Err(error: DbError)

  datatype Option<T> = None | Some(value: T)

  /** One entry of a cursor's result description; its first field is the
      column name, and `typeCode` stands for the entry's other fields, which
      the controller never reads. */
  datatype ColumnDescription = ColumnDescription(name: string, typeCode: int)

  /** What a cursor holds after executing a statement: the result description
      (absent for statements that return no rows) and the fetched rows. */
  datatype CursorResult<V> = CursorResult(description: Option<seq<ColumnDescription>>, rows: seq<seq<V>>)

  /** Rows together with the names of their columns, in result-set order. */
  datatype Table<V> = Table(rows: seq<seq<V>>, columns: seq<string>)

  /** The controller state after an operation, and what the operation returned. */
  datatype Reply<T> = Reply(state: Controller, result: Result<T>)

  /** A driver call's outcome as an operation's result: a raised error
      propagates unchanged. */
  function Propagate<T>(o: Outcome<T>): (r: Result<T>)
    ensures r.Ok? <==> o.Done?
    ensures o.Done? ==> r.value == o.value
    ensures o.Raised? ==> r.error == DriverError(o.message, o.closed)
  {
    match o
    case Done(v) => Ok(v)
    case Raised(m, k) => Err(DriverError(m, k))
  }

  /** Whether the operation failed with a driver error that left the
      connection closed. */
  predicate Breaks<T>(result: Result<T>) {
    result.Err? && result.error.DriverError? && result.error.closed != 0
  }

  /** How an operation moves the controller: the state is the one the
      reconnect check produced, except that the connection's flag is the one
      a breaking driver error left behind. */
  predicate StatementStep<T>(c: Controller, s: Controller, result: Result<T>) {
    var checked := CheckAndReconnect(c);
    && s.config == checked.config
    && s.isReconnect == checked.isReconnect
    && s.reconnectNumber == checked.reconnectNumber
    && s.conn.Conn? && s.conn.params == checked.conn.params
    && s.conn.closed == (if Breaks(result) then result.error.closed else 0)
  }

  /** The state after a statement ran over the checked connection `s`. */
  function Settle<T>(s: Controller, result: Result<T>): Controller {
    if Breaks(result) && s.conn.Conn? then s.(conn := s.conn.(closed := result.error.closed)) else s
  }

  /** The column names of a result description, in order. */
  function ColumnNames(description: seq<ColumnDescription>): (names: seq<string>)
    ensures |names| == |description|
    ensures forall i :: 0 <= i < |description| ==> names[i] == description[i].name
    decreases |description|
  {
    if |description| == 0 then []
    else ColumnNames(description[..|description| - 1]) + [description[|description| - 1].name]
  }

  /** A read: the rows and the column names of the result set. A statement with
      no result description makes the column extraction fail. */
  function SelectWithColumns<V>(c: Controller, query: string,
                                driver: (Config, string) -> Outcome<CursorResult<V>>): (r: Reply<Table<V>>)
    ensures StatementStep(c, r.state, r.result)
    ensures IsOpen(r.state.conn) <==> !Breaks(r.result)
    ensures ConnectCount(r.state) == ConnectCount(c) + (if ConnectionIsClosed(c) then 1 else 0)
    ensures Consistent(c) ==> r.state.conn.params == c.config && Consistent(r.state)
    ensures driver(r.state.conn.params, query).Raised? ==>
              r.result == Err(DriverError(driver(r.state.conn.params, query).message,
                                          driver(r.state.conn.params, query).closed))
    ensures driver(r.state.conn.params, query).Done? ==>
              var cursor := driver(r.state.conn.params, query).value;
              && (cursor.description.None? ==> r.result == Err(NoResultDescription))
              && (cursor.description.Some? ==>
                    && r.result.Ok?
                    && r.result.value.rows == cursor.rows
                    && |r.result.value.columns| == |cursor.description.value|
                    && forall i :: 0 <= i < |cursor.description.value| ==>
                         r.result.value.columns[i] == cursor.description.value[i].name)
  {
    var state := CheckAndReconnect(c);
    var result := match driver(state.conn.params, query)
      case Raised(m, k) => Err(DriverError(m, k))
      case Done(cursor) =>
        match cursor.description
        case None => Err(NoResultDescription)
        case Some(description) => Ok(Table(cursor.rows, ColumnNames(description)));
    Reply(Settle(state, result), result)
  }

  /** A read returning the rows only. */
  function Select<V>(c: Controller, query: string,
                     driver: (Config, string) -> Outcome<CursorResult<V>>): (r: Reply<seq<seq<V>>>)
    ensures r.state == SelectWithColumns(c, query, driver).state
    ensures r.result.Ok? <==> SelectWithColumns(c, query, driver).result.Ok?
    ensures r.result.Ok? ==> r.result.value == SelectWithColumns(c, query, driver).result.value.rows
    ensures r.result.Err? ==> r.result.error == SelectWithColumns(c, query, driver).result.error
  {
    var full := SelectWithColumns(c, query, driver);
    match full.result
    case Ok(table) => Reply(full.state, Ok(table.rows))
    case Err(e) => Reply(full.state, Err(e))
  }

  /** A write or DDL statement: nothing is fetched or returned. */
  function Execute<V>(c: Controller, query: string,
                      driver: (Config, string) -> Outcome<CursorResult<V>>): (r: Reply<()>)
    ensures StatementStep(c, r.state, r.result)
    ensures IsOpen(r.state.conn) <==> !Breaks(r.result)
    ensures ConnectCount(r.state) == ConnectCount(c) + (if ConnectionIsClosed(c) then 1 else 0)
    ensures Consistent(c) ==> r.state.conn.params == c.config && Consistent(r.state)
    ensures r.result.Ok? <==> driver(r.state.conn.params, query).Done?
    ensures driver(r.state.conn.params, query).Raised? ==>
              r.result == Err(DriverError(driver(r.state.conn.params, query).message,
                                          driver(r.state.conn.params, query).closed))
    ensures r.result.Err? ==> r.result.error.DriverError?
  {
    var state := CheckAndReconnect(c);
    var result := match driver(state.conn.params, query)
      case Done(_) => Ok(())
      case Raised(m, k) => Err(DriverError(m, k));
    Reply(Settle(state, result), result)
  }

  /** A bulk insert: the rows are handed, together with the INSERT statement for
      the table and columns, to the driver's batched-values builder, which
      reports success or the error it raised. */
  function InsertDataframe<V>(c: Controller, batched: (Config, string, seq<seq<V>>) -> Outcome<()>,
                              columns: seq<string>, rows: seq<seq<V>>,
                              table: string, schema: string := DefaultSchema): (r: Reply<()>)
    ensures StatementStep(c, r.state, r.result)
    ensures IsOpen(r.state.conn) <==> !Breaks(r.result)
    ensures ConnectCount(r.state) == ConnectCount(c) + (if ConnectionIsClosed(c) then 1 else 0)
    ensures Consistent(c) ==> r.state.conn.params == c.config && Consistent(r.state)
    ensures r.result == Propagate(batched(r.state.conn.params, InsertStatement(columns, table, schema), rows))
    ensures r.result.Err? ==> r.result.error.DriverError?
  {
    var state := CheckAndReconnect(c);
    var result := Propagate(batched(state.conn.params, InsertStatement(columns, table, schema), rows));
    Reply(Settle(state, result), result)
  }

  /** What the batched-values builder is handed by a bulk insert: the rows,
      over the checked connection, and a statement that starts with the INSERT
      keyword, ends with the builder's single placeholder, and holds no other
      `%` exactly when no schema, table or column name holds one. */
  lemma InsertHandsStatement<V>(c: Controller, batched: (Config, string, seq<seq<V>>) -> Outcome<()>,
                                columns: seq<string>, rows: seq<seq<V>>, table: string, schema: string)
    ensures var q := InsertStatement(columns, table, schema);
            && InsertDataframe(c, batched, columns, rows, table, schema).result
                 == Propagate(batched(CheckAndReconnect(c).conn.params, q, rows))
            && |InsertKeyword| + |InsertTail| <= |q|
            && q[..|InsertKeyword|] == InsertKeyword
            && q[|q| - |InsertTail|..] == InsertTail
            && (Occurrences(q, '%') == 1 <==>
                  && '%' !in schema
                  && '%' !in table
                  && forall i :: 0 <= i < |columns| ==> '%' !in columns[i])
  {
    InsertStatementFrame(columns, table, schema);
    SinglePlaceholderIff(columns, table, schema);
  }

  /** A statement without a result description, such as DDL, succeeds through
      `execute` but fails through the read operations. */
  lemma NoDescriptionOnlyForExecute<V>(c: Controller, query: string,
                                       driver: (Config, string) -> Outcome<CursorResult<V>>)
    requires Consistent(c)
    requires driver(c.config, query).Done? && driver(c.config, query).value.description.None?
    ensures Execute(c, query, driver).result.Ok?
    ensures SelectWithColumns(c, query, driver).result == Err(NoResultDescription)
    ensures Select(c, query, driver).result == Err(NoResultDescription)
  {
  }

  /** The steps of a run an operation amounts to: the reconnect check, followed
      by the connection closing when a driver error broke it. */
  function OperationEvents<T>(result: Result<T>): (events: seq<Event>)
    ensures 0 < |events| && events[0] == Operation
    ensures |events| == 1 <==> !Breaks(result)
  {
    if Breaks(result) then [Operation, PeerClosed(result.error.closed)] else [Operation]
  }

  /** An operation moves the controller exactly as its steps of a run do, and
      connects exactly once when the connection was absent or closed. */
  predicate FollowsRun<T>(c: Controller, reply: Reply<T>) {
    && reply.state == Run(c, OperationEvents(reply.result))
    && ConnectsDuring(c, OperationEvents(reply.result)) == (if ConnectionIsClosed(c) then 1 else 0)
  }

  /** `FollowsRun` for any state an operation can leave. */
  lemma StatementStepIsRun<T>(c: Controller, s: Controller, result: Result<T>)
    requires StatementStep(c, s, result)
    ensures FollowsRun(c, Reply(s, result))
  {
    var checked := CheckAndReconnect(c);
    var events := OperationEvents(result);
    assert [Operation][1..] == [];
    assert Run(checked, []) == checked && ConnectsDuring(checked, []) == 0;
    if Breaks(result) {
      var code: CloseCode := result.error.closed;
      assert events[1..] == [PeerClosed(code)];
      assert events[1..][1..] == [];
      assert Run(checked, events[1..]) == PeerClose(checked, code);
      assert ConnectsDuring(checked, events[1..]) == 0;
    }
  }

  /** Every operation, whatever the driver does, is a step of a run: the
      reconnect check, plus a server-side close when a driver error broke the
      connection. So the run lemmas of `Lifecycle` apply to sequences of
      operations, and each operation opens exactly one connection when the
      connection was closed and none otherwise. */
  lemma OperationsAreRunSteps<V>(c: Controller, query: string,
                                 driver: (Config, string) -> Outcome<CursorResult<V>>,
                                 batched: (Config, string, seq<seq<V>>) -> Outcome<()>,
                                 columns: seq<string>, rows: seq<seq<V>>, table: string, schema: string)
    ensures FollowsRun(c, SelectWithColumns(c, query, driver))
    ensures FollowsRun(c, Select(c, query, driver))
    ensures FollowsRun(c, Execute(c, query, driver))
    ensures FollowsRun(c, InsertDataframe(c, batched, columns, rows, table, schema))
  {
    var full := SelectWithColumns(c, query, driver);
    StatementStepIsRun(c, full.state, full.result);
    var rowsOnly := Select(c, query, driver);
    assert Breaks(rowsOnly.result) == Breaks(full.result);
    var exec := Execute(c, query, driver);
    StatementStepIsRun(c, exec.state, exec.result);
    var insert := InsertDataframe(c, batched, columns, rows, table, schema);
    StatementStepIsRun(c, insert.state, insert.result);
  }
}

=== FILE: sql.dfy ===
/** The text of the bulk-insert statement: schema, table and column names are
    spliced into a fixed INSERT template whose `%s` is later expanded by the
    driver's batched-values builder into the row tuples. No quoting or escaping
    of the names is done.
 */
module Sql {

  /** The parts separated by `sep`, as Python's `sep.join(parts)` builds it. */
  function Join(parts: seq<string>, sep: string): (joined: string)
    ensures |parts| == 0 ==> joined == ""
    ensures |parts| > 0 ==> |joined| == TotalLength(parts) + (|parts| - 1) * |sep|
    decreases |parts|
  {
    if |parts| == 0 then ""
    else if |parts| == 1 then parts[0]
    else Join(parts[..|parts| - 1], sep) + sep + parts[|parts| - 1]
  }

  /** The lengths of all the parts together. */
  function TotalLength(parts: seq<string>): nat
    decreases |parts|
  {
    if |parts| == 0 then 0 else TotalLength(parts[..|parts| - 1]) + |parts[|parts| - 1]|
  }

  /** Where part `i` starts in the joined text: every earlier part is followed
      by one separator. */
  function Offset(parts: seq<string>, sep: string, i: nat): nat
    requires i <= |parts|
  {
    if i == 0 then 0 else Offset(parts, sep, i - 1) + |parts[i - 1]| + |sep|
  }

  /** Offsets only look at the parts before the index. */
  lemma {:induction false} OffsetOfPrefix(parts: seq<string>, sep: string, n: nat, i: nat)
    requires i <= n <= |parts|
    ensures Offset(parts[..n], sep, i) == Offset(parts, sep, i)
    decreases i
  {
    if i > 0 {
      OffsetOfPrefix(parts, sep, n, i - 1);
      assert parts[..n][i - 1] == parts[i - 1];
    }
  }

  /** The joined text ends right after the last part. */
  lemma {:induction false} JoinLength(parts: seq<string>, sep: string)
    requires |parts| > 0
    ensures |Join(parts, sep)| == Offset(parts, sep, |parts| - 1) + |parts[|parts| - 1]|
    decreases |parts|
  {
    var n := |parts|;
    if n > 1 {
      var prefix := parts[..n - 1];
      JoinLength(prefix, sep);
      OffsetOfPrefix(parts, sep, n - 1, n - 2);
      assert prefix[n - 2] == parts[n - 2];
    }
  }

  /** A slice inside the middle piece of a concatenation is a slice of that piece. */
  lemma SliceOfMiddle(s: string, a: string, b: string, c: string, k: nat, l: nat)
    requires s == a + b + c
    requires k <= l <= |b|
    ensures s[|a| + k..|a| + l] == b[k..l]
  {
  }

  /** Joining one more part appends a separator and that part. */
  lemma JoinSnoc(parts: seq<string>, sep: string)
    requires |parts| >= 2
    ensures Join(parts, sep) == Join(parts[..|parts| - 1], sep) + sep + parts[|parts| - 1]
  {
  }

  /** The last part starts right after the joined earlier parts and one separator. */
  lemma LastOffset(parts: seq<string>, sep: string)
    requires |parts| >= 2
    ensures Offset(parts, sep, |parts| - 1) == |Join(parts[..|parts| - 1], sep)| + |sep|
  {
    var n := |parts|;
    var prefix := parts[..n - 1];
    JoinLength(prefix, sep);
    OffsetOfPrefix(parts, sep, n - 1, n - 2);
    assert prefix[n - 2] == parts[n - 2];
  }

  /** Part `i` sits at its offset in the joined text. */
  lemma {:induction false} JoinPartAt(parts: seq<string>, sep: string, i: nat)
    requires i < |parts|
    ensures Offset(parts, sep, i) + |parts[i]| <= |Join(parts, sep)|
    ensures Join(parts, sep)[Offset(parts, sep, i)..Offset(parts, sep, i) + |parts[i]|] == parts[i]
    decreases |parts|
  {
    var n := |parts|;
    var joined := Join(parts, sep);
    var o := Offset(parts, sep, i);
    var len := |parts[i]|;
    if n == 1 {
      assert joined == parts[0];
    } else {
      var prefix := parts[..n - 1];
      var front := Join(prefix, sep);
      var last := parts[n - 1];
      JoinSnoc(parts, sep);
      if i == n - 1 {
        LastOffset(parts, sep);
        SliceOfMiddle(joined, front + sep, last, "", 0, |last|);
        assert last[0..|last|] == last;
      } else {
        JoinPartAt(prefix, sep, i);
        OffsetOfPrefix(parts, sep, n - 1, i);
        assert prefix[i] == parts[i];
        SliceOfMiddle(joined, "", front, sep + last, o, o + len);
      }
    }
  }

  /** Between two consecutive parts the joined text holds exactly one separator. */
  lemma {:induction false} JoinSeparatorAt(parts: seq<string>, sep: string, i: nat)
    requires i + 1 < |parts|
    ensures Offset(parts, sep, i) + |parts[i]| <= Offset(parts, sep, i + 1) <= |Join(parts, sep)|
    ensures Join(parts, sep)[Offset(parts, sep, i) + |parts[i]|..Offset(parts, sep, i + 1)] == sep
    decreases |parts|
  {
    var n := |parts|;
    if i + 1 == n - 1 {
      SeparatorBeforeLast(parts, sep);
    } else {
      var prefix := parts[..n - 1];
      JoinSeparatorAt(prefix, sep, i);
      SeparatorInFront(parts, sep, i, Join(parts, sep), Join(prefix, sep));
    }
  }

  /** A separator inside the joined earlier parts stays where it is when one
      more part is joined. */
  lemma SeparatorInFront(parts: seq<string>, sep: string, i: nat, joined: string, front: string)
    requires i + 2 < |parts|
    requires joined == Join(parts, sep) && front == Join(parts[..|parts| - 1], sep)
    requires var prefix := parts[..|parts| - 1];
             && Offset(prefix, sep, i + 1) <= |front|
             && front[Offset(prefix, sep, i) + |prefix[i]|..Offset(prefix, sep, i + 1)] == sep
    ensures Offset(parts, sep, i) + |parts[i]| <= Offset(parts, sep, i + 1) <= |joined|
    ensures joined[Offset(parts, sep, i) + |parts[i]|..Offset(parts, sep, i + 1)] == sep
  {
    var n := |parts|;
    var prefix := parts[..n - 1];
    var o := Offset(parts, sep, i) + |parts[i]|;
    var o' := Offset(parts, sep, i + 1);
    assert joined == front + sep + parts[n - 1] by {
      JoinSnoc(parts, sep);
    }
    assert o' <= |front| && front[o..o'] == sep by {
      OffsetOfPrefix(parts, sep, n - 1, i);
      OffsetOfPrefix(parts, sep, n - 1, i + 1);
      assert prefix[i] == parts[i];
    }
    PieceAt(joined, "", front, sep + parts[n - 1], o, sep);
  }

  /** The separator in front of the last part. */
  lemma SeparatorBeforeLast(parts: seq<string>, sep: string)
    requires |parts| >= 2
    ensures var i := |parts| - 2;
            && Offset(parts, sep, i) + |parts[i]| + |sep| == Offset(parts, sep, i + 1) <= |Join(parts, sep)|
            && Join(parts, sep)[Offset(parts, sep, i) + |parts[i]|..Offset(parts, sep, i + 1)] == sep
  {
    var n := |parts|;
    var joined := Join(parts, sep);
    var prefix := parts[..n - 1];
    var front := Join(prefix, sep);
    assert joined == front + sep + parts[n - 1] by {
      JoinSnoc(parts, sep);
    }
    assert Offset(parts, sep, n - 1) == |front| + |sep| by {
      LastOffset(parts, sep);
    }
    assert Offset(parts, sep, n - 2) + |parts[n - 2]| == |front| by {
      OffsetOfPrefix(parts, sep, n - 1, n - 2);
      JoinLength(prefix, sep);
      assert prefix[n - 2] == parts[n - 2];
    }
    PieceAt(joined, front, sep, parts[n - 1], 0, sep);
  }

  /** How often a character occurs in a text. */
  function Occurrences(s: string, ch: char): nat {
    multiset(s)[ch]
  }

  /** How often a character occurs in all the parts together. */
  function TotalOccurrences(parts: seq<string>, ch: char): nat
    decreases |parts|
  {
    if |parts| == 0 then 0
    else TotalOccurrences(parts[..|parts| - 1], ch) + Occurrences(parts[|parts| - 1], ch)
  }

  /** No part holds the character exactly when their total count is zero. */
  lemma {:induction false} TotalOccurrencesZero(parts: seq<string>, ch: char)
    ensures TotalOccurrences(parts, ch) == 0 <==> forall i :: 0 <= i < |parts| ==> ch !in parts[i]
    decreases |parts|
  {
    var n := |parts|;
    if n > 0 {
      var prefix := parts[..n - 1];
      TotalOccurrencesZero(prefix, ch);
      assert forall i :: 0 <= i < n - 1 ==> prefix[i] == parts[i];
      assert ch in parts[n - 1] <==> Occurrences(parts[n - 1], ch) > 0;
    }
  }

  /** A character the separator does not hold occurs in the joined text exactly
      as often as in the parts. */
  lemma {:induction false} JoinOccurrences(parts: seq<string>, sep: string, ch: char)
    requires ch !in sep
    ensures Occurrences(Join(parts, sep), ch) == TotalOccurrences(parts, ch)
    decreases |parts|
  {
    assert Occurrences(sep, ch) == 0;
    var n := |parts|;
    if n == 1 {
      assert parts[..0] == [];
    } else if n > 1 {
      var prefix := parts[..n - 1];
      JoinOccurrences(prefix, sep, ch);
      assert multiset(Join(parts, sep)) == multiset(Join(prefix, sep)) + multiset(sep) + multiset(parts[n - 1]);
    }
  }

  /** The separator between column names. */
  const ColumnSeparator := ", "

  /** The schema used when the caller names none. */
  const DefaultSchema := "public"

  /** The keyword the statement starts with. */
  const InsertKeyword := "INSERT INTO "

  /** The part of the statement before the column list. */
  function InsertHead(table: string, schema: string): (h: string)
    ensures |h| == |InsertKeyword| + |schema| + |"."| + |table| + |" ("|
  {
    InsertKeyword + schema + "." + table + " ("
  }

  /** The part of the statement after the column list. */
  const InsertTail := ") VALUES %s"

  /** The INSERT statement handed to the batched-values builder. */
  function InsertStatement(columns: seq<string>, table: string, schema: string := DefaultSchema): (q: string)
    ensures |q| == |InsertHead(table, schema)| + |Join(columns, ColumnSeparator)| + |InsertTail|
  {
    InsertHead(table, schema) + Join(columns, ColumnSeparator) + InsertTail
  }

  /** The statement starts with the INSERT keyword and ends with the single
      placeholder for the batched row tuples. */
  lemma InsertStatementFrame(columns: seq<string>, table: string, schema: string)
    ensures var q := InsertStatement(columns, table, schema);
            && |InsertKeyword| + |InsertTail| <= |q|
            && q[..|InsertKeyword|] == InsertKeyword
            && q[|q| - |InsertTail|..] == InsertTail
  {
  }

  /** Occurrences add up over a concatenation. */
  lemma OccurrencesConcat(a: string, b: string, ch: char)
    ensures Occurrences(a + b, ch) == Occurrences(a, ch) + Occurrences(b, ch)
  {
  }

  /** The fixed text around the names holds a single `%`, the placeholder's. */
  lemma TemplatePercents()
    ensures Occurrences(InsertKeyword, '%') == 0
    ensures Occurrences(".", '%') == 0
    ensures Occurrences(" (", '%') == 0
    ensures Occurrences(InsertTail, '%') == 1
  {
    assert '%' !in InsertKeyword;
    assert InsertTail == ") VALUES " + "%" + "s";
    assert '%' !in ") VALUES ";
    OccurrencesConcat(") VALUES ", "%", '%');
    OccurrencesConcat(") VALUES " + "%", "s", '%');
  }

  /** The head holds the `%`s of the schema and table names and no other. */
  lemma HeadPercents(table: string, schema: string)
    ensures Occurrences(InsertHead(table, schema), '%') == Occurrences(schema, '%') + Occurrences(table, '%')
  {
    TemplatePercents();
    OccurrencesConcat(InsertKeyword, schema, '%');
    OccurrencesConcat(InsertKeyword + schema, ".", '%');
    OccurrencesConcat(InsertKeyword + schema + ".", table, '%');
    OccurrencesConcat(InsertKeyword + schema + "." + table, " (", '%');
  }

  /** The statement carries one `%` for each `%` in the names, plus the one of
      its trailing `%s` placeholder. */
  lemma PlaceholderCount(columns: seq<string>, table: string, schema: string)
    ensures Occurrences(InsertStatement(columns, table, schema), '%') ==
              Occurrences(schema, '%') + Occurrences(table, '%') + TotalOccurrences(columns, '%') + 1
  {
    var q := InsertStatement(columns, table, schema);
    var cols := Join(columns, ColumnSeparator);
    StatementPercents(table, schema, cols, q);
    ColumnListPercents(columns, cols);
  }

  /** The column list holds the `%`s of the column names and no other. */
  lemma ColumnListPercents(columns: seq<string>, cols: string)
    requires cols == Join(columns, ColumnSeparator)
    ensures Occurrences(cols, '%') == TotalOccurrences(columns, '%')
  {
    assert '%' !in ColumnSeparator;
    JoinOccurrences(columns, ColumnSeparator, '%');
  }

  /** `PlaceholderCount` for a statement whose column list is named. */
  lemma StatementPercents(table: string, schema: string, cols: string, q: string)
    requires q == InsertHead(table, schema) + cols + InsertTail
    ensures Occurrences(q, '%') == Occurrences(schema, '%') + Occurrences(table, '%') + Occurrences(cols, '%') + 1
  {
    HeadPercents(table, schema);
    TemplatePercents();
    ThreePieceOccurrences(q, InsertHead(table, schema), cols, InsertTail, '%');
  }

  /** Occurrences in a text made of three pieces. */
  lemma ThreePieceOccurrences(q: string, a: string, b: string, c: string, ch: char)
    requires q == a + b + c
    ensures Occurrences(q, ch) == Occurrences(a, ch) + Occurrences(b, ch) + Occurrences(c, ch)
  {
  }

  /** The statement's only `%` is the one of its placeholder exactly when no
      schema, table or column name contains a `%` (the builder expects a single
      placeholder and the names are not escaped). */
  lemma SinglePlaceholderIff(columns: seq<string>, table: string, schema: string)
    ensures Occurrences(InsertStatement(columns, table, schema), '%') == 1 <==>
              && '%' !in schema
              && '%' !in table
              && forall i :: 0 <= i < |columns| ==> '%' !in columns[i]
  {
    PlaceholderCount(columns, table, schema);
    TotalOccurrencesZero(columns, '%');
  }

  /** Each column name appears in the statement, in order, at the position its
      offset in the column list gives. */
  lemma InsertColumnLayout(columns: seq<string>, table: string, schema: string, i: nat)
    requires i < |columns|
    ensures var start := |InsertHead(table, schema)| + Offset(columns, ColumnSeparator, i);
            && start + |columns[i]| <= |InsertStatement(columns, table, schema)|
            && InsertStatement(columns, table, schema)[start..start + |columns[i]|] == columns[i]
  {
    var q := InsertStatement(columns, table, schema);
    var o := Offset(columns, ColumnSeparator, i);
    var start := |InsertHead(table, schema)| + o;
    assert start + |columns[i]| <= |q| && q[start..start + |columns[i]|] == columns[i] by {
      ColumnAt(columns, table, schema, i, q, o);
    }
  }

  /** `InsertColumnLayout` with the statement, its column list and the offset named. */
  lemma ColumnAt(columns: seq<string>, table: string, schema: string, i: nat, q: string, o: nat)
    requires i < |columns|
    requires q == InsertStatement(columns, table, schema)
    requires o == Offset(columns, ColumnSeparator, i)
    ensures |InsertHead(table, schema)| + o + |columns[i]| <= |q|
    ensures q[|InsertHead(table, schema)| + o..|InsertHead(table, schema)| + o + |columns[i]|] == columns[i]
  {
    var cols := Join(columns, ColumnSeparator);
    var part := columns[i];
    assert o + |part| <= |cols| && cols[o..o + |part|] == part by {
      JoinPartAt(columns, ColumnSeparator, i);
    }
    PieceAt(q, InsertHead(table, schema), cols, InsertTail, o, part);
  }

  /** A piece found in the middle part of a concatenation, found in the whole. */
  lemma PieceAt(q: string, head: string, cols: string, tail: string, o: nat, part: string)
    requires q == head + cols + tail
    requires o + |part| <= |cols| && cols[o..o + |part|] == part
    ensures |head| + o + |part| <= |q| && q[|head| + o..|head| + o + |part|] == part
  {
  }
}
